=== FILE: README.md ===
# Tags, point values and the role validator, modelled in Dafny

This project models three pieces of the Ushahidi platform's persistence and
validation layer. It proves properties of each.

- **The tag repository** (`TagRepository`) works on the `tags` table. The table
  is modelled as an in-memory sequence of rows in store order. Each row is a
  PHP associative array: a map from field to value. The model covers:
  - hydration of a row into a Tag entity. A top-level tag gets the ids of its
    children.
  - search, composed as a conjunction of WHERE conditions and made DISTINCT.
  - `create`, which stamps `created` and strips nulls.
  - `update`, which writes the changed fields without `children`.
  - `getByTag`, `doesTagExist` and `isSlugAvailable`.
  - the two-step `delete`.

  Every write is appended to a journal of writes. This makes two things
  observable: the order of delete's steps, and an update that writes nothing.
- **The point value repository** (`PointRepository`) stores the point geometry
  of a post attribute. When a row is read, the WKT decoder's outcome becomes a
  `{lon, lat}` value. When a value is written, an array becomes the
  `GeomFromText('POINT(lon lat)')` expression and anything else becomes null.
  The decoder and PHP's `floatval` are function parameters.
- **The role update validator** (`RoleUpdateValidator`) declares two rules: a
  numeric rule for `id`, and the permission check for `permissions`. The
  permission check is a fold that stops at the first missing permission. The
  permission repository is an existence predicate. The validation framework is
  an error accumulator.

Shared pieces:
- `Values` holds PHP values and PHP truthiness (`if ($x)`, `empty($x)`).
- `Rows` holds the query operations on a sequence of rows: filter, first row,
  COUNT and DISTINCT.

Behaviour of the code a reader might not expect:
- A WKT text that decodes to a geometry other than a point keeps its text as
  `value`. It does not become `{lon: null, lat: null}`. Only `InvalidText` does.
- `delete` runs both steps even when the entity has no id. The cleanup is called
  with null. The row removal then matches no row, because `id = NULL` compiles
  to `id IS NULL`.
- `create` does not itself refuse an entity that already has an id. The id is
  handed to the insert as given; the primary key refuses it when a row already
  has it, and `create` passes that error on. The table's integrity (distinct
  ids, each below the next auto-increment value) is kept by every successful
  `create`, by every `update` and by every `delete`.
- `update` takes the row to change and the new `id` value from the same
  entity, so a changed `id` is written back to the row that already has it.

## Model

| member | source | states |
|---|---|---|
| TagRepository.GetEntity | src/App/Repository/TagRepository.php:45-60 | a top-level row (non-empty id, empty parent id) gains `children`, the list of its child ids; any other row comes back unchanged; no other key changes in either case |
| TagRepository.ChildIds | src/App/Repository/TagRepository.php:51-55 | the children query returns one id per row that names the tag as its parent |
| TagRepository.ChildIdsMembers | src/App/Repository/TagRepository.php:51-55 | an id is among the children of `id` iff some row has that id and names `id` as parent |
| TagRepository.ChildIdsAppend | src/App/Repository/TagRepository.php:51-55 | the children list of a concatenated table is the children of each part in turn, so children follow store order |
| TagRepository.TreeChildren | src/App/Repository/TagRepository.php:51-55 | rows 1 (root), 2 and 3 (children of 1): the children query for 1 returns `[2, 3]` |
| TagRepository.TreeExample | src/App/Repository/TagRepository.php:45-59 | on the same rows, tag 1 gets `children = [2, 3]`, and tag 2 gets no `children` key |
| TagRepository.GetEntityInjective | src/App/Repository/TagRepository.php:45-60 | two stored rows that hydrate to the same entity are the same row |
| TagRepository.SearchConditions | src/App/Repository/TagRepository.php:75-95 | the query gets a LIKE condition iff `q` is truthy; it gets `parent_id IS NULL` iff `level` is `"parent"`; every other equality compares with a truthy criterion |
| TagRepository.SearchConditionsMeanMatches | src/App/Repository/TagRepository.php:75-95 | a row satisfies the composed conditions iff it meets every truthy criterion: equal `tag`, `type` and `parent_id`, `q` inside `tag`, null parent for level "parent" |
| TagRepository.MatchingRows | src/App/Repository/TagRepository.php:101 | the DISTINCT query returns only rows of the table, none of them twice |
| TagRepository.MatchingRowsMembers | src/App/Repository/TagRepository.php:98-102 | a row is selected by the DISTINCT query iff it is in the table and meets every criterion |
| TagRepository.HydratedMembers | src/App/Repository/TagRepository.php:98-103 | the hydrated results are exactly the entities of the stored rows that meet every criterion |
| TagRepository.HydrateAll | src/App/Repository/TagRepository.php:102 | the collection has one entity per fetched row, in the same order, each hydrated from that row |
| TagRepository.HydratedDistinct | src/App/Repository/TagRepository.php:101-102 | hydrating distinct stored rows yields no duplicate entity |
| TagRepository.GetSearchResults | src/App/Repository/TagRepository.php:98-103 | the results are the hydrated DISTINCT matching rows in store order; an entity is returned iff it hydrates a matching row; no entity is returned twice |
| Rows.SelectDistinct | src/App/Repository/TagRepository.php:101 | one pass over the table that keeps each matching row once gives the DISTINCT of the filtered rows |
| Rows.Select | src/App/Repository/TagRepository.php:80-92 | the WHERE filter keeps exactly the rows satisfying the predicate and adds none |
| Rows.SelectAppend | src/App/Repository/TagRepository.php:80-92 | filtering a concatenation filters each part in order |
| Rows.SelectNoDuplicates | src/App/Repository/TagRepository.php:157-159 | filtering rows that hold no duplicate leaves none |
| Rows.Distinct | src/App/Repository/TagRepository.php:101 | DISTINCT keeps exactly the elements of its input, each once |
| Rows.DistinctSelectSnoc | src/App/Repository/TagRepository.php:101 | scanning one more row adds it to the DISTINCT result iff it matches and has not been kept |
| Values.ContainsIff | src/App/Repository/TagRepository.php:86 | the `%q%` substring test holds iff `q` occurs at some position of the text |
| TagRepository.GetChanged | src/App/Repository/TagRepository.php:118 | the changed-field diff has exactly the changed fields as keys, with their current values |
| TagRepository.RemoveNullValues | src/App/Repository/TagRepository.php:111 | a key stays iff its value is not null, with the same value |
| TagRepository.ExecuteInsert | src/App/Repository/TagRepository.php:111 | the insert fails iff the record names `children` (unknown column) or gives an id some row already has (duplicate key); otherwise it appends one row carrying the record and an id, and returns that id; without a given id it takes the next auto-increment value and advances the counter; an integer id always ends below the counter |
| TagRepository.Create | src/App/Repository/TagRepository.php:106-114 | create succeeds iff the entity has no non-null `children` and no id that a row already has, and otherwise returns the matching store error; it appends one row with `created` set to now, no null values, and every other non-null field of the entity; it returns the row's id and journals one insert; for an entity without an id, the id is the next auto-increment value |
| TagRepository.SlugTakenAfterCreate | src/App/Repository/TagRepository.php:147-150 | after a tag with a non-null slug is created, that slug is not available |
| TagRepository.UpdateRows | src/App/Repository/TagRepository.php:121 | rows with another id are untouched; a row with the id reads each changed key's new value and every other key's old value |
| TagRepository.ExecuteUpdate | src/App/Repository/TagRepository.php:121 | no changes means no write and a count of 0; changes naming `children` fail; otherwise the matching rows are updated, one write is journalled, and the count is the number of rows with that id |
| TagRepository.Update | src/App/Repository/TagRepository.php:116-124 | the model's update never fails; with nothing changed besides `children` it writes nothing and returns 0; otherwise each row with the entity's id takes the entity's value in every changed column except `children`, and every other column and row keeps its value; a row without `children` gains none |
| TagRepository.UpdateKeepsCreated | src/App/Repository/TagRepository.php:116-124 | an update whose diff does not name `created` leaves `created` of every row as it was |
| TagRepository.PartialUpdateKeepsOtherColumns | src/App/Repository/TagRepository.php:116-124 | an update that changed only `type` leaves every other column of every row as it was |
| TagRepository.ExecuteDelete | src/App/Repository/TagRepository.php:157-159 | the rows left are exactly those with another id; the count is the number of rows removed, which is the number with that id |
| TagRepository.Delete | src/App/Repository/TagRepository.php:152-160 | the journal gets the attribute-option cleanup for the entity's id, then the row removal for that id; rows with other ids stay; the count is the number of rows with that id |
| TagRepository.AtMostOneRowPerId | src/App/Repository/TagRepository.php:121 | when no two rows share an id, an id names at most one row, so update and delete affect at most one |
| TagRepository.CreatePreservesValidDb | src/App/Repository/TagRepository.php:106-114 | a successful create keeps the ids distinct and below the next auto-increment value, and the id returned belonged to no earlier row |
| TagRepository.DuplicateIdExample | src/App/Repository/TagRepository.php:106-114 | creating a tag with id 7 in a table whose row has id 7 fails with a duplicate-key error |
| TagRepository.UpdatePreservesValidDb | src/App/Repository/TagRepository.php:116-124 | every update keeps the table's integrity, including one whose changed fields include `id` |
| TagRepository.DeletePreservesValidDb | src/App/Repository/TagRepository.php:152-160 | a delete keeps the table's integrity, and no row with the deleted id remains |
| Rows.Count | src/App/Repository/TagRepository.php:138-143 | the count is zero iff no row satisfies the predicate |
| Rows.First | src/App/Repository/TagRepository.php:130 | the single-row select finds nothing iff no row matches; otherwise it returns the first matching row in store order |
| TagRepository.GetByTag | src/App/Repository/TagRepository.php:128-131 | with a row whose `tag` equals the text, the result is the hydrated first such row; with none, it is the empty entity |
| TagRepository.DoesTagExist | src/App/Repository/TagRepository.php:134-144 | true iff some row has the value as its id or as its tag text |
| TagRepository.ExistenceSymmetry | src/App/Repository/TagRepository.php:134-144 | a stored tag is found both by its id and by its text |
| TagRepository.IsSlugAvailable | src/App/Repository/TagRepository.php:147-150 | true iff no row has that slug |
| PointRepository.GetEntity | src/App/Repository/Post/PointRepository.php:37-49 | a decoded point gives `value = {lon, lat}` from the point; `InvalidText` gives `{null, null}` and no error; another geometry leaves the row as it was; the fields other than `value` never change |
| PointRepository.ReadYieldsCoordinatesOnlyForPoints | src/App/Repository/Post/PointRepository.php:39-46 | reading WKT gives a pair iff the decoder did not return another geometry; the pair's components are set iff the decoder found a point |
| PointRepository.NormalizeValue | src/App/Repository/Post/PointRepository.php:66-76 | an array becomes the point expression whose parameters are its components passed through `floatval`, under the same keys; any non-array, including null, becomes null |
| PointRepository.NormalizedPointBound | src/App/Repository/Post/PointRepository.php:68-70 | the expression binds both `lon` and `lat` iff the input is an array with both components |
| PointRepository.CreateValueWrite | src/App/Repository/Post/PointRepository.php:79-82 | `form_attribute_id` and `post_id` pass through unchanged; the value is replaced by its normalised form |
| PointRepository.UpdateValueWrite | src/App/Repository/Post/PointRepository.php:85-88 | the row id passes through unchanged; the value is replaced by its normalised form |
| PointRepository.WriteThenRead | src/App/Repository/Post/PointRepository.php:37-88 | take the value `createValue` or `updateValue` forwards for an array with `lon` and `lat`; suppose the database renders it as text that the decoder parses back to the bound parameters; then reading the row gives the `floatval`-coerced pair |
| RoleUpdateValidator.ScanPermissions | src/App/Validator/Role/Update.php:45-50 | no permission is reported missing iff all exist, and then every one was looked up; otherwise the first missing one is reported, and exactly the prefix up to it was looked up |
| RoleUpdateValidator.FirstMissingUnique | src/App/Validator/Role/Update.php:45-50 | the first missing permission of a list is a single position |
| RoleUpdateValidator.CheckPermissionsRule | src/App/Validator/Role/Update.php:39-51 | an empty or absent list records nothing and asks nothing; if all listed permissions exist, nothing is recorded; otherwise exactly one `permissions`/`permissionDoesNotExist` error naming the first missing permission is recorded, and later entries are never looked up |
| RoleUpdateValidator.ShortCircuitExample | src/App/Validator/Role/Update.php:45-50 | for `["read", "nonexistent", "write"]`, one error names "nonexistent" and "write" is never looked up |
| RoleUpdateValidator.ApplyRules | src/App/Validator/Role/Update.php:27-37 | each rule records at most one error; a field's rules record only the numeric error, when its value is not numeric and the numeric rule applies, or the error naming the first missing permission, when the permission check applies; the numeric error is recorded whenever it applies; the permission check alone records exactly what `checkPermissions` records |
| RoleUpdateValidator.Validate | src/App/Validator/Role/Update.php:27-37 | `id` fails only the numeric rule, exactly when it is not numeric; `permissions` fails only the permission check, with an error naming the first missing permission whenever one is missing and no error when all exist; no field has two errors, so there are at most two |

## Left out

- `deleteTag` (src/App/Repository/TagRepository.php:163-169) is not modelled. It passes an undefined `$entity` to the cleanup. It also passes an array where `delete` expects an entity. It is not a working operation.
- SQL and the query builder are modelled as operations on a sequence of rows, not as query text. This covers select, insert, update, delete and `COUNT(*)`. The `AsText(value)` select override is modelled only through its effect: a read row carries WKT text.
- SQL comparisons are modelled as exact equality on values. MySQL's default collation compares text case-insensitively and ignores trailing spaces; this is not modelled. It affects `isSlugAvailable`, `getByTag`, `doesTagExist` and the `tag` and `type` equalities of the search. Kohana compiles `= NULL` to `IS NULL`, and the model matches that. MySQL's type coercion (for example `id = 'news'` compared as a number) is not modelled.
- `LIKE '%q%'` is modelled as a plain substring test on string columns. The `%` and `_` wildcards inside `q` are not modelled, and neither is case-insensitive collation.
- SQL gives no row order. The model uses store order, and DISTINCT keeps the first occurrence.
- TagRepository.ExecuteUpdate: counts the rows the update matches. MySQL by default reports only the rows it actually changed.
- TagRepository.ExecuteUpdate: the store's refusals of an update are not modelled, apart from a `children` key. A duplicate value in a unique column such as `slug`, or a NOT NULL column set to null, would make the real update fail; the model's update succeeds and writes the value.
- TagRepository.ExecuteInsert: the store's refusals are modelled only for a `children` key, which is not a column, and for a duplicate primary key. Other constraints of the `tags` schema are not part of this model. An explicit integer id at or past the counter moves the counter to the id plus one, as InnoDB does; other counter policies are not modelled. An explicit id of 0 is kept as given, where MySQL (without `NO_AUTO_VALUE_ON_ZERO`) would assign the next auto-increment value instead.
- TagRepository.Create: for an entity whose id is 0 the model stores and returns id 0, for the same reason.
- The JSON transcoding of `role` (`getJsonProperties`) is not part of this model. `role` is carried as an opaque value.
- The internals of `removeTagFromAttributeOptions` are not part of this model. `delete` records the call, with its argument, in the journal. A failure of either delete step is not modelled.
- `getCollection` is not part of this model. It is taken to hydrate each fetched row with `getEntity`, in the order fetched (TagRepository.HydrateAll).
- TagRepository.Update: `executeUpdate` is not part of this model. It is taken to write every key of its input, `created` included, and to write nothing and return 0 for an empty input. So in the model `created` is rewritten when it is in the entity's diff; whether the base repository or the entity keeps `created` unchanged after creation is not modelled. The model promises only that an update whose diff lacks `created` keeps it (TagRepository.UpdateKeepsCreated).
- `selectOne` is not part of this model. With no matching row it is taken to return null, which `getEntity` turns into an empty Tag.
- `time()` is a parameter (`now`).
- TagRepository.GetEntity: takes the entity constructor `new Tag($data)` as the identity on the row. The Tag entity's type casting of fields is not part of this model.
- PointRepository.GetEntity: takes the entity constructor `new PostValue($data)` as the identity on the row. The PostValue entity's type casting of fields is not part of this model.
- `getSearchQuery` is not part of this model. It is taken to carry only the WHERE conditions `setSearchConditions` adds, with no ORDER BY, LIMIT or OFFSET; paging would make the results a part of the matching rows rather than all of them.
- `selectCount` is not part of this model. It is taken to return an integer, so the strict `=== 0` test of `isSlugAvailable` compares numbers; a string count would make that test always false.
- `getSearchFields` is represented by the `SearchData` datatype, whose fields are exactly the recognised ones.
- WKT parsing (Symm Gisconverter) and `floatval` are parameters. Decoder exceptions other than `InvalidText` are outside the three-outcome datatype. Floating-point values and the tolerance of a write/read round trip are not modelled.
- PointRepository.WriteThenRead: the round trip holds only under a stated assumption about how the database and the decoder agree. The database's geometry storage is not modelled.
- `ValueRepository::createValue`/`updateValue` are not part of this model. The model stops at the call they receive.
- The Kohana validation framework is an error accumulator. Its `numeric` rule is a parameter, and that parameter also decides how an absent id is treated. Kohana stops at a field's first failed rule; with one rule per field this cannot show. A `foreach` over a non-array `permissions` value is modelled as zero iterations; the PHP warning it raises is not modelled.
- Parent cycles among tags are not checked by the code and are not modelled.

=== FILE: point_repository.dfy ===
/** The point-geometry value repository of posts: the case analysis that turns
    the WKT decoder's outcome into a `{lon, lat}` value when a row is read,
    and the normalisation that turns a written value into a point expression
    or null. The decoder, the database and float coercion are parameters. */
module PointRepository {

  import opened Values

  /** What the WKT decoder makes of a value: a point, some other geometry, or
      an InvalidText exception. Coordinates are opaque. */
  datatype Decoded<C> = Point(lon: C, lat: C) | OtherGeometry | InvalidText

  /** The `value` of a point row: the WKT text the select projects with
      `AsText(value)` (absent for SQL NULL), or the `{lon, lat}` pair that
      hydration puts in its place (a component may be null). */
  datatype PointValue<C> = Wkt(text: Option<string>) | LonLat(lon: Option<C>, lat: Option<C>)

  /** A row of `post_point`, hydrated into a PostValue; `other` holds any
      further columns. */
  datatype PostValue<C> = PostValue(
    id: Value,
    postId: Value,
    formAttributeId: Value,
    value: PointValue<C>,
    other: map<string, Value>)

  /** `getEntity`: a decoded point replaces `value` by its `{lon, lat}`; text
      the decoder rejects becomes `{lon: null, lat: null}` and raises nothing;
      any other geometry leaves `value` as it was. Every other field is kept. */
  function GetEntity<C>(decode: PointValue<C> -> Decoded<C>, data: PostValue<C>): (e: PostValue<C>)
    ensures e.(value := data.value) == data
    ensures decode(data.value).Point? ==>
              e.value == LonLat(Some(decode(data.value).lon), Some(decode(data.value).lat))
    ensures decode(data.value).InvalidText? ==> e.value == LonLat(None, None)
    ensures decode(data.value).OtherGeometry? ==> e == data
  {
    match decode(data.value)
    case Point(lon, lat) => data.(value := LonLat(Some(lon), Some(lat)))
    case OtherGeometry => data
    case InvalidText => data.(value := LonLat(None, None))
  }

  /** Every row can be read: a coordinate comes out of a read only when the
      decoder found a point, and then both come out. */
  lemma ReadYieldsCoordinatesOnlyForPoints<C>(decode: PointValue<C> -> Decoded<C>, data: PostValue<C>)
    requires data.value.Wkt?
    ensures GetEntity(decode, data).value.LonLat? <==> !decode(data.value).OtherGeometry?
    ensures GetEntity(decode, data).value.LonLat? ==>
              (GetEntity(decode, data).value.lon.Some? <==> decode(data.value).Point?)
              && (GetEntity(decode, data).value.lat.Some? <==> decode(data.value).Point?)
  {
  }

  /** A value handed to `createValue`/`updateValue`: a PHP array of
      components, or anything else (null, a string, a number). */
  datatype Input<A> = ArrayInput(components: map<string, A>) | NotArray(v: Value)

  /** What a write stores in the geometry column: NULL, or the expression
      `GeomFromText('POINT(lon lat)')` with the named parameters bound. */
  datatype Column<C> = NullColumn | GeomFromText(params: map<string, C>)

  /** Both placeholders of the template have a value. */
  predicate FullyBound<C>(col: Column<C>) {
    col.GeomFromText? && "lon" in col.params && "lat" in col.params
  }

  /** `normalizeValue`: an array has every component coerced by `toFloat`
      (floatval) and becomes the point expression parameterised by them; any
      non-array, null included, becomes null. */
  function NormalizeValue<A, C>(toFloat: A -> C, v: Input<A>): (col: Column<C>)
    ensures col.GeomFromText? <==> v.ArrayInput?
    ensures col.GeomFromText? ==>
              && col.params.Keys == v.components.Keys
              && forall k :: k in col.params ==> col.params[k] == toFloat(v.components[k])
  {
    match v
    case ArrayInput(components) => GeomFromText(map k | k in components :: toFloat(components[k]))
    case NotArray(_) => NullColumn
  }

  /** The expression binds both placeholders exactly when the array has a
      `lon` and a `lat` component. */
  lemma NormalizedPointBound<A, C>(toFloat: A -> C, v: Input<A>)
    ensures FullyBound(NormalizeValue(toFloat, v)) <==>
              v.ArrayInput? && "lon" in v.components && "lat" in v.components
  {
  }

  /** The call the repository forwards to the generic value repository. */
  datatype ValueWrite<C> =
    | CreateValue(value: Column<C>, formAttributeId: Value, postId: Value)
    | UpdateValue(id: Value, value: Column<C>)

  /** `createValue`: forwards the attribute and post ids unchanged, with the
      value replaced by its normalised form. */
  function CreateValueWrite<A, C>(toFloat: A -> C, value: Input<A>, formAttributeId: Value, postId: Value)
    : (w: ValueWrite<C>)
    ensures w.CreateValue?
    ensures w.formAttributeId == formAttributeId && w.postId == postId
    ensures w.value.GeomFromText? <==> value.ArrayInput?
    ensures w.value == NormalizeValue(toFloat, value)
  {
    CreateValue(NormalizeValue(toFloat, value), formAttributeId, postId)
  }

  /** `updateValue`: forwards the row id unchanged, with the value replaced
      by its normalised form. */
  function UpdateValueWrite<A, C>(toFloat: A -> C, id: Value, value: Input<A>): (w: ValueWrite<C>)
    ensures w.UpdateValue?
    ensures w.id == id
    ensures w.value.GeomFromText? <==> value.ArrayInput?
    ensures w.value == NormalizeValue(toFloat, value)
  {
    UpdateValue(id, NormalizeValue(toFloat, value))
  }

  /** Writing `{lon, lat}` through `createValue` or `updateValue` and reading
      the row back gives the coerced pair, provided the database renders the
      stored point as text the decoder parses back to the bound parameters. */
  lemma WriteThenRead<A, C>(
    toFloat: A -> C,
    decode: PointValue<C> -> Decoded<C>,
    asText: Column<C> -> Option<string>,
    value: Input<A>,
    formAttributeId: Value,
    postId: Value,
    id: Value,
    w: ValueWrite<C>,
    row: PostValue<C>)
    requires w == CreateValueWrite(toFloat, value, formAttributeId, postId)
             || w == UpdateValueWrite(toFloat, id, value)
    requires value.ArrayInput? && "lon" in value.components && "lat" in value.components
    requires w.value.GeomFromText? && "lon" in w.value.params && "lat" in w.value.params ==>
               decode(Wkt(asText(w.value))) == Point(w.value.params["lon"], w.value.params["lat"])
    requires row.value == Wkt(asText(w.value))
    ensures GetEntity(decode, row).value ==
              LonLat(Some(toFloat(value.components["lon"])), Some(toFloat(value.components["lat"])))
  {
  }
}

=== FILE: role_update_validator.dfy ===
/** The validator applied when a role is updated: `id` must pass the numeric
    rule, and every permission listed must exist, checked in order and
    stopping at the first one that does not. The validation framework is an
    error accumulator; the permission repository and the numeric rule are
    predicates passed in. */
module RoleUpdateValidator {

  import opened Values

  /** An error recorded on the validation: field, rule and parameters. */
  datatype ValidationError = ValidationError(field: string, rule: string, params: seq<Value>)

  /** The rules `getRules` attaches to a field. */
  datatype Rule = Numeric | CheckPermissions

  /** The declared rules: `id` is numeric; `permissions` go through the
      permission check. */
  const Rules: map<string, seq<Rule>> := map["id" := [Numeric], "permissions" := [CheckPermissions]]

  /** `k` is the first position whose permission does not exist. */
  predicate IsFirstMissing(xs: seq<Value>, known: Value -> bool, k: int) {
    0 <= k < |xs| && !known(xs[k]) && forall j :: 0 <= j < k ==> known(xs[j])
  }

  /** What the loop over the permissions found: the first missing permission,
      if any, and the permissions the oracle was asked about, in order. */
  datatype Scan = Scan(missing: Option<Value>, consulted: seq<Value>)

  /** The loop over the permissions: asks the oracle about each in order and
      stops at the first missing one. */
  function ScanPermissions(xs: seq<Value>, known: Value -> bool): (r: Scan)
    ensures r.missing.None? <==> forall i :: 0 <= i < |xs| ==> known(xs[i])
    ensures r.missing.None? ==> r.consulted == xs
    ensures r.missing.Some? ==>
              exists k :: IsFirstMissing(xs, known, k) && r.missing.value == xs[k] && r.consulted == xs[..k + 1]
  {
    if |xs| == 0 then Scan(None, [])
    else if !known(xs[0]) then
      assert IsFirstMissing(xs, known, 0);
      Scan(Some(xs[0]), [xs[0]])
    else
      var rest := ScanPermissions(xs[1..], known);
      if rest.missing.Some? then
        var k :| IsFirstMissing(xs[1..], known, k) && rest.missing.value == xs[1..][k]
                 && rest.consulted == xs[1..][..k + 1];
        assert IsFirstMissing(xs, known, k + 1);
        assert [xs[0]] + rest.consulted == xs[..k + 2];
        Scan(rest.missing, [xs[0]] + rest.consulted)
      else
        assert [xs[0]] + xs[1..] == xs;
        Scan(None, [xs[0]] + rest.consulted)
  }

  /** The first missing permission is unique. */
  lemma FirstMissingUnique(xs: seq<Value>, known: Value -> bool, k: int, m: int)
    requires IsFirstMissing(xs, known, k) && IsFirstMissing(xs, known, m)
    ensures k == m
  {
  }

  /** The state after `checkPermissions`: the errors recorded so far and the
      permissions the existence oracle was asked about, in order. */
  datatype Checked = Checked(errors: seq<ValidationError>, consulted: seq<Value>)

  /** The error recorded for a missing permission. */
  function MissingPermission(p: Value): ValidationError {
    ValidationError("permissions", "permissionDoesNotExist", [p])
  }

  /** `checkPermissions`: an empty or absent list records nothing and asks
      nothing; otherwise the list is scanned and at most one error, naming the
      first missing permission, is appended. A value that is not a list is
      iterated zero times. */
  function CheckPermissionsRule(errors: seq<ValidationError>, permissions: Value, known: Value -> bool)
    : (r: Checked)
    ensures !Truthy(permissions) || !permissions.List? ==> r == Checked(errors, [])
    ensures permissions.List? && (forall i :: 0 <= i < |permissions.items| ==> known(permissions.items[i])) ==>
              r == Checked(errors, permissions.items)
    ensures forall k :: permissions.List? && IsFirstMissing(permissions.items, known, k) ==>
              r == Checked(errors + [MissingPermission(permissions.items[k])], permissions.items[..k + 1])
  {
    if !Truthy(permissions) then Checked(errors, [])
    else match permissions
      case List(xs) =>
        var scan := ScanPermissions(xs, known);
        if scan.missing.Some? then
          Checked(errors + [MissingPermission(scan.missing.value)], scan.consulted)
        else
          Checked(errors, scan.consulted)
      case _ => Checked(errors, [])
  }

  /** The permissions of `["read", "nonexistent", "write"]`: one error for
      "nonexistent", and "write" is never looked up. */
  lemma ShortCircuitExample(known: Value -> bool)
    requires known(Str("read")) && known(Str("write")) && !known(Str("nonexistent"))
    ensures var r := CheckPermissionsRule([], List([Str("read"), Str("nonexistent"), Str("write")]), known);
            && r.errors == [MissingPermission(Str("nonexistent"))]
            && Str("write") !in r.consulted
  {
    var xs := [Str("read"), Str("nonexistent"), Str("write")];
    assert IsFirstMissing(xs, known, 1);
    assert xs[..2] == [Str("read"), Str("nonexistent")];
  }

  /** The input fields the validator looks at. */
  datatype RoleData = RoleData(id: Value, permissions: Value)

  /** The error the permission check records for a value, when it records
      one: the first missing permission of the list. */
  ghost predicate IsMissingPermissionError(e: ValidationError, permissions: Value, known: Value -> bool) {
    permissions.List?
    && exists k :: IsFirstMissing(permissions.items, known, k) && e == MissingPermission(permissions.items[k])
  }

  /** The errors one field's rules record, in order; each rule records at
      most one. `numeric` is the framework's numeric rule as it treats the
      field's value (an absent id included). */
  function ApplyRules(rules: seq<Rule>, field: string, value: Value,
                      numeric: Value -> bool, known: Value -> bool): (r: seq<ValidationError>)
    ensures |r| <= |rules|
    ensures forall e :: e in r ==>
              (e == ValidationError(field, "numeric", [value]) && Numeric in rules && !numeric(value))
              || (IsMissingPermissionError(e, value, known) && CheckPermissions in rules)
    ensures Numeric in rules && !numeric(value) ==> ValidationError(field, "numeric", [value]) in r
    ensures rules == [CheckPermissions] ==> r == CheckPermissionsRule([], value, known).errors
    decreases |rules|
  {
    if |rules| == 0 then []
    else
      var first :=
        match rules[0]
        case Numeric => if numeric(value) then [] else [ValidationError(field, "numeric", [value])]
        case CheckPermissions => CheckPermissionsRule([], value, known).errors;
      assert |first| <= 1;
      assert forall e :: e in first && rules[0] == CheckPermissions ==> IsMissingPermissionError(e, value, known);
      var rest := ApplyRules(rules[1..], field, value, numeric, known);
      assert rules == [CheckPermissions] ==> rest == [] && first + rest == first;
      first + rest
  }

  /** Appending the errors of two fields, each with at most one error, gives
      no two errors on the same field. */
  lemma OneErrorPerField(first: seq<ValidationError>, second: seq<ValidationError>)
    requires |first| <= 1 && |second| <= 1
    requires forall e :: e in first ==> e.field == "id"
    requires forall e :: e in second ==> e.field == "permissions"
    ensures var all := first + second;
            forall i, j :: 0 <= i < j < |all| ==> all[i].field != all[j].field
  {
  }

  /** Validates an update: the declared rules of `id`, then of `permissions`.
      `id` can only fail the numeric rule, and exactly when it is not numeric;
      `permissions` can only fail the permission check, once, naming the first
      missing permission. Each field has at most one error. */
  function Validate(d: RoleData, numeric: Value -> bool, known: Value -> bool): (errors: seq<ValidationError>)
    ensures forall e :: e in errors ==>
              (e == ValidationError("id", "numeric", [d.id]) && !numeric(d.id))
              || (e.field == "permissions" && IsMissingPermissionError(e, d.permissions, known))
    ensures ValidationError("id", "numeric", [d.id]) in errors <==> !numeric(d.id)
    ensures forall k :: d.permissions.List? && IsFirstMissing(d.permissions.items, known, k) ==>
              MissingPermission(d.permissions.items[k]) in errors
    ensures !d.permissions.List? || (forall i :: 0 <= i < |d.permissions.items| ==> known(d.permissions.items[i])) ==>
              forall e :: e in errors ==> e.field == "id"
    ensures forall i, j :: 0 <= i < j < |errors| ==> errors[i].field != errors[j].field
    ensures |errors| <= 2
  {
    assert Rules["id"] == [Numeric] && Rules["permissions"] == [CheckPermissions];
    var idErrors := ApplyRules(Rules["id"], "id", d.id, numeric, known);
    var permissionErrors := ApplyRules(Rules["permissions"], "permissions", d.permissions, numeric, known);
    assert idErrors == if numeric(d.id) then [] else [ValidationError("id", "numeric", [d.id])];
    assert forall e :: e in permissionErrors ==> e.field == "permissions";
    OneErrorPerField(idErrors, permissionErrors);
    idErrors + permissionErrors
  }
}

=== FILE: rows.dfy ===
/** Sequence operations a query performs over the rows of a table, in store
    order: filtering by a WHERE predicate, DISTINCT, and COUNT(*). */
module Rows {

  import Values

  /** The rows that satisfy `p`, in store order. */
  function Select<T(!new)>(rows: seq<T>, p: T -> bool): (r: seq<T>)
    ensures |r| <= |rows|
    ensures forall x :: x in r <==> x in rows && p(x)
  {
    if |rows| == 0 then []
    else (if p(rows[0]) then [rows[0]] else []) + Select(rows[1..], p)
  }

  /** Filtering a concatenation filters each part and keeps them in order:
      together with its value on one row, this fixes Select completely. */
  lemma {:induction false} SelectAppend<T(!new)>(a: seq<T>, b: seq<T>, p: T -> bool)
    ensures Select(a + b, p) == Select(a, p) + Select(b, p)
  {
    if |a| == 0 {
      assert a + b == b;
    } else {
      assert (a + b)[1..] == a[1..] + b;
      SelectAppend(a[1..], b, p);
    }
  }

  /** Number of rows satisfying `p`: `SELECT COUNT(*) ... WHERE p`. */
  function Count<T(!new)>(rows: seq<T>, p: T -> bool): (n: nat)
    ensures n == 0 <==> forall i :: 0 <= i < |rows| ==> !p(rows[i])
  {
    var s := Select(rows, p);
    assert |s| > 0 ==> s[0] in s;
    assert (exists i :: 0 <= i < |rows| && p(rows[i])) ==> |s| > 0 by {
      if i :| 0 <= i < |rows| && p(rows[i]) {
        assert rows[i] in s;
      }
    }
    |s|
  }

  /** The first row satisfying `p`, as a query with LIMIT 1 returns it. */
  function First<T(!new)>(rows: seq<T>, p: T -> bool): (r: Values.Option<T>)
    ensures r.None? <==> forall i :: 0 <= i < |rows| ==> !p(rows[i])
    ensures r.Some? ==> exists k :: 0 <= k < |rows| && rows[k] == r.value && p(rows[k])
                                    && forall j :: 0 <= j < k ==> !p(rows[j])
  {
    if |rows| == 0 then Values.None
    else if p(rows[0]) then Values.Some(rows[0])
    else
      var r := First(rows[1..], p);
      assert r.Some? ==> exists k :: 0 <= k < |rows| - 1 && rows[1..][k] == r.value && p(rows[1..][k])
                                    && forall j :: 0 <= j < k ==> !p(rows[1..][j]);
      r
  }

  predicate NoDuplicates<T(==)>(s: seq<T>) {
    forall i, j :: 0 <= i < j < |s| ==> s[i] != s[j]
  }

  /** Filtering a sequence without duplicates leaves none. */
  lemma {:induction false} SelectNoDuplicates<T(!new)>(s: seq<T>, p: T -> bool)
    requires NoDuplicates(s)
    ensures NoDuplicates(Select(s, p))
  {
    if |s| > 0 {
      var tail := s[1..];
      assert NoDuplicates(tail) by {
        forall i, j | 0 <= i < j < |tail| ensures tail[i] != tail[j] {
          assert tail[i] == s[i + 1] && tail[j] == s[j + 1];
        }
      }
      SelectNoDuplicates(tail, p);
      assert s[0] !in tail by {
        forall j | 0 <= j < |tail| ensures tail[j] != s[0] {
          assert tail[j] == s[j + 1];
        }
      }
      var rest := Select(tail, p);
      var r := Select(s, p);
      if p(s[0]) {
        assert r == [s[0]] + rest;
        forall i, j | 0 <= i < j < |r| ensures r[i] != r[j] {
          if i == 0 {
            assert r[j] == rest[j - 1] && rest[j - 1] in rest;
          } else {
            assert r[i] == rest[i - 1] && r[j] == rest[j - 1];
          }
        }
      } else {
        assert r == rest;
      }
    }
  }

  /** DISTINCT: the first occurrence of every element, in order. */
  function Distinct<T(==,!new)>(s: seq<T>): (r: seq<T>)
    ensures forall x :: x in r <==> x in s
    ensures NoDuplicates(r)
  {
    if |s| == 0 then []
    else
      var d := Distinct(s[..|s| - 1]);
      assert forall x :: x in s <==> x in s[..|s| - 1] || x == s[|s| - 1];
      if s[|s| - 1] in d then d else d + [s[|s| - 1]]
  }

  /** Scanning one more row: DISTINCT over the selected rows grows by that row
      exactly when it is selected and has not been kept before. */
  lemma DistinctSelectSnoc<T(!new)>(prefix: seq<T>, x: T, p: T -> bool)
    ensures Distinct(Select(prefix + [x], p)) ==
            var d := Distinct(Select(prefix, p));
            if p(x) && x !in d then d + [x] else d
  {
    SelectAppend(prefix, [x], p);
    assert Select([x], p) == if p(x) then [x] else [];
    var s := Select(prefix + [x], p);
    if p(x) {
      assert s[..|s| - 1] == Select(prefix, p);
    } else {
      assert s == Select(prefix, p);
    }
  }

  /** `SELECT DISTINCT ... WHERE p` as one pass over the table, remembering
      the rows already kept. */
  method SelectDistinct<T(==,!new)>(rows: seq<T>, p: T -> bool) returns (kept: seq<T>)
    ensures kept == Distinct(Select(rows, p))
  {
    kept := [];
    var i := 0;
    while i < |rows|
      invariant 0 <= i <= |rows|
      invariant kept == Distinct(Select(rows[..i], p))
    {
      assert rows[..i + 1] == rows[..i] + [rows[i]];
      DistinctSelectSnoc(rows[..i], rows[i], p);
      if p(rows[i]) && rows[i] !in kept {
        kept := kept + [rows[i]];
      }
      i := i + 1;
    }
    assert rows[..i] == rows;
  }
}

=== FILE: tag_repository.dfy ===
/** The `tags` table and the repository over it: hydration of a row into a Tag
    (with the ids of its children for a top-level tag), search composed as a
    conjunction of WHERE conditions, create/update shaping the record they
    write, the existence and slug queries, and the two-step delete.

    The table is an in-memory sequence of rows in store order; every write is
    also appended to a journal, so the order of a multi-step operation and the
    absence of a write are both observable. */
module TagRepository {

  import opened Values
  import Rows

  /** Keys of a tag record: the columns of `tags`, plus `children`, which is
      derived when a tag is read and is not a column. */
  datatype Field = Id | Tag | Slug | Type | ParentId | Role | Created | Children

  /** A tag as a PHP associative array. `Role` holds the structured value
      opaquely: its JSON transcoding is outside this model. */
  type Record = map<Field, Value>

  /** `$data[$f]`, with an absent key read as null (an unset column reads as
      NULL too). */
  function Get(r: Record, f: Field): Value {
    if f in r then r[f] else Null
  }

  /** A row as the table holds it: columns only. */
  predicate IsStoredRow(r: Record) {
    Children !in r
  }

  /** One write the repository issued, in order. `OptionsDetached` is the
      removal of a tag from every attribute's option list, whose internals are
      outside this model. */
  datatype Write =
    | Inserted(row: Record)
    | Updated(id: Value, changes: Record)
    | Deleted(id: Value)
    | OptionsDetached(tagId: Value)

  /** The store: the rows of `tags` in store order, the next auto-increment id
      and the journal of writes. */
  datatype Db = Db(tags: seq<Record>, nextId: int, journal: seq<Write>)

  /** A write naming a key that is not a column fails in the store. */
  datatype StoreError = UnknownColumn(f: Field) | DuplicateKey(id: Value)

  // ---------------------------------------------------------------------------
  // Hydration (getEntity)
  // ---------------------------------------------------------------------------

  /** A top-level tag: non-empty id and empty parent id, in PHP's sense. */
  predicate IsTopLevel(data: Record) {
    Truthy(Get(data, Id)) && !Truthy(Get(data, ParentId))
  }

  /** The rows naming `id` as their parent. */
  function ParentIs(id: Value): Record -> bool {
    r => Get(r, ParentId) == id
  }

  /** The `id` column of each row, in order. */
  function IdsOf(rows: seq<Record>): (ids: seq<Value>)
    ensures |ids| == |rows|
    ensures forall k :: 0 <= k < |rows| ==> ids[k] == Get(rows[k], Id)
  {
    seq(|rows|, k requires 0 <= k < |rows| => Get(rows[k], Id))
  }

  /** `SELECT id FROM tags WHERE parent_id = id`, in store order. */
  function ChildIds(tags: seq<Record>, id: Value): (ids: seq<Value>)
    ensures |ids| == Rows.Count(tags, ParentIs(id))
  {
    IdsOf(Rows.Select(tags, ParentIs(id)))
  }

  /** The children are exactly the ids of the rows naming `id` as parent. */
  lemma ChildIdsMembers(tags: seq<Record>, id: Value, x: Value)
    ensures x in ChildIds(tags, id) <==>
            exists i :: 0 <= i < |tags| && Get(tags[i], ParentId) == id && Get(tags[i], Id) == x
  {
    var sel := Rows.Select(tags, ParentIs(id));
    var ids := ChildIds(tags, id);
    if x in ids {
      var k :| 0 <= k < |ids| && ids[k] == x;
      assert sel[k] in sel;
      var i :| 0 <= i < |tags| && tags[i] == sel[k];
      assert Get(tags[i], ParentId) == id && Get(tags[i], Id) == x;
    }
    if exists i :: 0 <= i < |tags| && Get(tags[i], ParentId) == id && Get(tags[i], Id) == x {
      var i :| 0 <= i < |tags| && Get(tags[i], ParentId) == id && Get(tags[i], Id) == x;
      assert ParentIs(id)(tags[i]);
      assert tags[i] in sel;
      var k :| 0 <= k < |sel| && sel[k] == tags[i];
      assert ids[k] == x;
    }
  }

  /** The ids of two row sequences, one after the other. */
  lemma IdsOfAppend(a: seq<Record>, b: seq<Record>)
    ensures IdsOf(a + b) == IdsOf(a) + IdsOf(b)
  {
    var lhs, rhs := IdsOf(a + b), IdsOf(a) + IdsOf(b);
    forall k | 0 <= k < |lhs|
      ensures lhs[k] == rhs[k]
    {
      if k < |a| {
        assert (a + b)[k] == a[k];
      } else {
        assert (a + b)[k] == b[k - |a|];
      }
    }
  }

  /** The children of a tag keep the store order of their rows. */
  lemma ChildIdsAppend(a: seq<Record>, b: seq<Record>, id: Value)
    ensures ChildIds(a + b, id) == ChildIds(a, id) + ChildIds(b, id)
  {
    Rows.SelectAppend(a, b, ParentIs(id));
    IdsOfAppend(Rows.Select(a, ParentIs(id)), Rows.Select(b, ParentIs(id)));
  }

  /** Turns a loaded row into a Tag entity: a top-level row gains `children`,
      the ids of the rows naming it as parent; every other key is kept. */
  function GetEntity(tags: seq<Record>, data: Record): (e: Record)
    ensures IsTopLevel(data) ==> Children in e && e[Children] == List(ChildIds(tags, Get(data, Id)))
    ensures !IsTopLevel(data) ==> e == data
    ensures forall f :: f != Children ==> Get(e, f) == Get(data, f) && (f in e <==> f in data)
  {
    if IsTopLevel(data) then data[Children := List(ChildIds(tags, Get(data, Id)))]
    else data
  }

  /** Hydration loses nothing of a stored row: two rows with the same entity
      are the same row. */
  lemma GetEntityInjective(tags: seq<Record>, a: Record, b: Record)
    requires IsStoredRow(a) && IsStoredRow(b)
    requires GetEntity(tags, a) == GetEntity(tags, b)
    ensures a == b
  {
    var e := GetEntity(tags, a);
    assert a == e - {Children};
    assert b == e - {Children};
  }

  /** The rows of the three-row tree: a root and two children of it. */
  const TreeRows: seq<Record> :=
    [map[Id := Int(1)], map[Id := Int(2), ParentId := Int(1)], map[Id := Int(3), ParentId := Int(1)]]

  /** The children query on the three-row tree finds both children, in
      store order. */
  lemma TreeChildren()
    ensures ChildIds(TreeRows, Int(1)) == [Int(2), Int(3)]
  {
    var t1, t2, t3 := TreeRows[0], TreeRows[1], TreeRows[2];
    var p := ParentIs(Int(1));
    assert !p(t1) && p(t2) && p(t3);
    assert Rows.Select([t3], p) == [t3];
    assert Rows.Select([t2, t3], p) == [t2, t3] by {
      assert [t2, t3][1..] == [t3];
    }
    assert Rows.Select(TreeRows, p) == [t2, t3] by {
      assert TreeRows[1..] == [t2, t3];
    }
    assert IdsOf([t2, t3]) == [Int(2), Int(3)];
  }

  /** Hydrating the three-row tree: the root lists both children in store
      order, and a child gets no `children` key. */
  lemma TreeExample()
    ensures GetEntity(TreeRows, TreeRows[0])[Children] == List([Int(2), Int(3)])
    ensures Children !in GetEntity(TreeRows, TreeRows[1])
  {
    TreeChildren();
  }

  // ---------------------------------------------------------------------------
  // Search (setSearchConditions, getSearchResults)
  // ---------------------------------------------------------------------------

  /** The recognised search fields; an unset field is null (or "" for the two
      text fields, which behaves the same). */
  datatype SearchData = SearchData(tag: Value, tagType: Value, parentId: Value, q: string, level: string)

  /** One WHERE condition of the query. `Equals(f, Null)` is `f IS NULL`, as
      the query builder compiles `= NULL`. `Like(f, q)` is `f LIKE '%q%'`. */
  datatype Condition = Equals(f: Field, v: Value) | Like(f: Field, q: string)

  predicate Holds(c: Condition, r: Record) {
    match c
    case Equals(f, v) => Get(r, f) == v
    case Like(f, q) => Get(r, f).Str? && Contains(Get(r, f).s, q)
  }

  /** A row satisfies a query when it satisfies every condition (AND). */
  predicate Satisfies(conds: seq<Condition>, r: Record) {
    forall c :: c in conds ==> Holds(c, r)
  }

  /** The WHERE conditions a search adds, in the order they are added: one
      equality per truthy `tag`, `type`, `parent_id`; a LIKE for a truthy `q`;
      `parent_id IS NULL` for `level === 'parent'`. */
  function SearchConditions(s: SearchData): (conds: seq<Condition>)
    ensures |conds| <= 5
    ensures Like(Tag, s.q) in conds <==> Truthy(Str(s.q))
    ensures Equals(ParentId, Null) in conds <==> s.level == "parent"
    ensures forall c :: c in conds && c.Equals? && c.v != Null ==> Truthy(c.v)
  {
    (if Truthy(s.tag) then [Equals(Tag, s.tag)] else [])
    + (if Truthy(s.tagType) then [Equals(Type, s.tagType)] else [])
    + (if Truthy(s.parentId) then [Equals(ParentId, s.parentId)] else [])
    + (if Truthy(Str(s.q)) then [Like(Tag, s.q)] else [])
    + (if Truthy(Str(s.level)) && s.level == "parent" then [Equals(ParentId, Null)] else [])
  }

  /** What a search means, criterion by criterion. */
  predicate Matches(s: SearchData, r: Record) {
    && (Truthy(s.tag) ==> Get(r, Tag) == s.tag)
    && (Truthy(s.tagType) ==> Get(r, Type) == s.tagType)
    && (Truthy(s.parentId) ==> Get(r, ParentId) == s.parentId)
    && (Truthy(Str(s.q)) ==> Get(r, Tag).Str? && Contains(Get(r, Tag).s, s.q))
    && (s.level == "parent" ==> Get(r, ParentId) == Null)
  }

  /** The composed query selects exactly the rows meeting every set criterion. */
  lemma SearchConditionsMeanMatches(s: SearchData, r: Record)
    ensures Satisfies(SearchConditions(s), r) <==> Matches(s, r)
  {
    var conds := SearchConditions(s);
    if Truthy(s.tag) { assert Equals(Tag, s.tag) in conds; }
    if Truthy(s.tagType) { assert Equals(Type, s.tagType) in conds; }
    if Truthy(s.parentId) { assert Equals(ParentId, s.parentId) in conds; }
  }

  /** The query's filter as a predicate on rows. */
  function QueryFilter(s: SearchData): Record -> bool {
    r => Satisfies(SearchConditions(s), r)
  }

  /** The rows a search selects after DISTINCT, in store order. */
  function MatchingRows(tags: seq<Record>, s: SearchData): (rows: seq<Record>)
    ensures Rows.NoDuplicates(rows)
    ensures forall r :: r in rows ==> r in tags
  {
    Rows.Distinct(Rows.Select(tags, QueryFilter(s)))
  }

  /** The rows a search selects are the stored rows meeting every criterion. */
  lemma MatchingRowsMembers(tags: seq<Record>, s: SearchData, r: Record)
    ensures r in MatchingRows(tags, s) <==> r in tags && Matches(s, r)
  {
    SearchConditionsMeanMatches(s, r);
  }

  /** Hydrating the selected rows yields exactly the entities of the stored
      rows meeting every criterion. */
  lemma HydratedMembers(tags: seq<Record>, s: SearchData, results: seq<Record>)
    requires results == HydrateAll(tags, MatchingRows(tags, s))
    ensures forall e :: e in results <==> exists r :: r in tags && Matches(s, r) && e == GetEntity(tags, r)
  {
    var rows := MatchingRows(tags, s);
    forall e | e in results
      ensures exists r :: r in tags && Matches(s, r) && e == GetEntity(tags, r)
    {
      var k :| 0 <= k < |results| && results[k] == e;
      MatchingRowsMembers(tags, s, rows[k]);
    }
    forall e | exists r :: r in tags && Matches(s, r) && e == GetEntity(tags, r)
      ensures e in results
    {
      var r :| r in tags && Matches(s, r) && e == GetEntity(tags, r);
      MatchingRowsMembers(tags, s, r);
      var k :| 0 <= k < |rows| && rows[k] == r;
      assert results[k] == e;
    }
  }

  /** Hydrated search results repeat no entity when the table holds rows. */
  lemma HydratedDistinct(tags: seq<Record>, rows: seq<Record>, results: seq<Record>)
    requires forall r :: r in rows ==> IsStoredRow(r)
    requires Rows.NoDuplicates(rows)
    requires results == HydrateAll(tags, rows)
    ensures Rows.NoDuplicates(results)
  {
    forall a, b | 0 <= a < b < |results|
      ensures results[a] != results[b]
    {
      assert rows[a] in rows && rows[b] in rows;
      if results[a] == results[b] {
        GetEntityInjective(tags, rows[a], rows[b]);
      }
    }
  }

  /** Every row hydrated, in order. */
  function HydrateAll(tags: seq<Record>, rows: seq<Record>): (r: seq<Record>)
    ensures |r| == |rows|
    ensures forall k :: 0 <= k < |rows| ==> r[k] == GetEntity(tags, rows[k])
  {
    seq(|rows|, k requires 0 <= k < |rows| => GetEntity(tags, rows[k]))
  }

  /** `getSearchResults`: runs the DISTINCT query, then hydrates every row. */
  method GetSearchResults(tags: seq<Record>, s: SearchData) returns (results: seq<Record>)
    ensures results == HydrateAll(tags, MatchingRows(tags, s))
    ensures forall e :: e in results <==> exists r :: r in tags && Matches(s, r) && e == GetEntity(tags, r)
    ensures (forall r :: r in tags ==> IsStoredRow(r)) ==> Rows.NoDuplicates(results)
  {
    var rows := Rows.SelectDistinct(tags, QueryFilter(s));
    results := HydrateAll(tags, rows);
    HydratedMembers(tags, s, results);
    if forall r :: r in tags ==> IsStoredRow(r) {
      HydratedDistinct(tags, rows, results);
    }
  }

  // ---------------------------------------------------------------------------
  // Writes (create, update, delete)
  // ---------------------------------------------------------------------------

  /** A Tag entity: its current values (`asArray`) and the fields set since it
      was loaded. */
  datatype Entity = Entity(values: Record, changed: set<Field>)

  /** `getChanged()`: the changed fields with their current values. */
  function GetChanged(e: Entity): (diff: Record)
    ensures diff.Keys == e.changed
    ensures forall f :: f in diff ==> diff[f] == Get(e.values, f)
  {
    map f | f in e.changed :: Get(e.values, f)
  }

  /** `removeNullValues`: drops every key whose value is null. */
  function RemoveNullValues(m: Record): (r: Record)
    ensures forall f :: f in r <==> f in m && m[f] != Null
    ensures forall f :: f in r ==> r[f] == m[f]
  {
    map f | f in m && m[f] != Null :: m[f]
  }

  /** Some row of the table has `id` as its primary key. */
  predicate IdTaken(tags: seq<Record>, id: Value) {
    exists i :: 0 <= i < |tags| && Get(tags[i], Id) == id
  }

  /** `executeInsert`: appends the record as a new row and returns the row's
      id. A record without an id gets the next auto-increment value; a given
      id is kept, refused when a row already has it, and moves the counter
      past itself. A key that is not a column is refused. */
  function ExecuteInsert(db: Db, record: Record): (r: Result<(Db, Value), StoreError>)
    ensures r.Failure? <==> Children in record || (Id in record && IdTaken(db.tags, record[Id]))
    ensures r.Failure? ==>
              r.error == if Children in record then UnknownColumn(Children) else DuplicateKey(record[Id])
    ensures r.Success? ==> |r.value.0.tags| == |db.tags| + 1
    ensures r.Success? ==>
              var row := r.value.0.tags[|db.tags|];
              && r.value.0.tags == db.tags + [row]
              && r.value.0.journal == db.journal + [Inserted(row)]
              && row - {Id} == record - {Id}
              && Id in row && row[Id] == r.value.1
              && r.value.0.nextId >= db.nextId
              && (r.value.1.Int? ==> r.value.1.i < r.value.0.nextId)
              && (Id in record ==> r.value.1 == record[Id])
              && (Id !in record ==> r.value.1 == Int(db.nextId) && r.value.0.nextId == db.nextId + 1)
  {
    if Children in record then Failure(UnknownColumn(Children))
    else if Id in record && IdTaken(db.tags, record[Id]) then Failure(DuplicateKey(record[Id]))
    else
      var id := if Id in record then record[Id] else Int(db.nextId);
      var row := record[Id := id];
      var nextId := if id.Int? && id.i >= db.nextId then id.i + 1 else db.nextId;
      Success((Db(db.tags + [row], nextId, db.journal + [Inserted(row)]), id))
  }

  /** The row `create` writes for an entity at time `now`: `created` is `now`,
      every other column is the entity's value, and null values are absent. */
  predicate IsCreatedRow(e: Entity, now: int, row: Record) {
    && Created in row && row[Created] == Int(now)
    && (forall f :: f in row ==> row[f] != Null)
    && (forall f :: f != Created && f != Id ==> (f in row <==> Get(e.values, f) != Null))
    && (forall f :: f != Created && f != Id && f in row ==> row[f] == e.values[f])
    && (Get(e.values, Id) != Null ==> Get(row, Id) == e.values[Id])
  }

  /** `create`: stamps `created`, strips nulls and inserts; returns the new id.
      The store's refusal (a `children` key, a duplicate id) is passed on. */
  function Create(db: Db, e: Entity, now: int): (r: Result<(Db, Value), StoreError>)
    ensures r.Success? <==>
              Get(e.values, Children) == Null && !(Get(e.values, Id) != Null && IdTaken(db.tags, Get(e.values, Id)))
    ensures r.Failure? ==>
              r.error == if Get(e.values, Children) != Null then UnknownColumn(Children) else DuplicateKey(Get(e.values, Id))
    ensures r.Success? ==>
              var db' := r.value.0;
              && |db'.tags| == |db.tags| + 1
              && db'.tags[..|db.tags|] == db.tags
              && IsCreatedRow(e, now, db'.tags[|db.tags|])
              && Get(db'.tags[|db.tags|], Id) == r.value.1
              && db'.journal == db.journal + [Inserted(db'.tags[|db.tags|])]
              && db'.nextId >= db.nextId
              && (r.value.1.Int? ==> r.value.1.i < db'.nextId)
    ensures r.Success? && Get(e.values, Id) == Null ==>
              r.value.1 == Int(db.nextId) && r.value.0.nextId == db.nextId + 1
  {
    var record := RemoveNullValues(e.values[Created := Int(now)]);
    var r := ExecuteInsert(db, record);
    if r.Success? then
      var row := r.value.0.tags[|db.tags|];
      assert r.value.0.tags[..|db.tags|] == db.tags;
      assert forall f :: f != Id ==> (f in row <==> f in record);
      r
    else r
  }

  /** After a tag with slug `s` is created, `s` is no longer available. */
  lemma SlugTakenAfterCreate(db: Db, e: Entity, now: int)
    requires Get(e.values, Slug) != Null
    requires Create(db, e, now).Success?
    ensures !IsSlugAvailable(Create(db, e, now).value.0.tags, Get(e.values, Slug))
  {
    var tags := Create(db, e, now).value.0.tags;
    assert Get(tags[|db.tags|], Slug) == Get(e.values, Slug);
  }

  /** The row `id` selects, after an update writing `changes` to it. */
  function UpdateRows(tags: seq<Record>, id: Value, changes: Record): (r: seq<Record>)
    ensures |r| == |tags|
    ensures forall i :: 0 <= i < |tags| && Get(tags[i], Id) != id ==> r[i] == tags[i]
    ensures forall i, f :: 0 <= i < |tags| && Get(tags[i], Id) == id ==>
              Get(r[i], f) == (if f in changes then changes[f] else Get(tags[i], f))
    ensures forall i :: 0 <= i < |tags| ==> r[i].Keys <= tags[i].Keys + changes.Keys
  {
    seq(|tags|, i requires 0 <= i < |tags| => if Get(tags[i], Id) == id then tags[i] + changes else tags[i])
  }

  function HasId(id: Value): Record -> bool {
    r => Get(r, Id) == id
  }

  function LacksId(id: Value): Record -> bool {
    r => Get(r, Id) != id
  }

  /** `executeUpdate`: no changes means no write and a count of 0; otherwise
      the changes go to every row with that id and the count is the number of
      such rows. */
  function ExecuteUpdate(db: Db, id: Value, changes: Record): (r: Result<(Db, nat), StoreError>)
    ensures r.Failure? <==> |changes| > 0 && Children in changes
    ensures |changes| == 0 ==> r == Success((db, 0))
    ensures r.Success? && |changes| > 0 ==>
              && r.value.0.journal == db.journal + [Updated(id, changes)]
              && r.value.0.nextId == db.nextId
              && |r.value.0.tags| == |db.tags|
              && (forall i :: 0 <= i < |db.tags| && Get(db.tags[i], Id) != id ==> r.value.0.tags[i] == db.tags[i])
              && (forall i, f :: 0 <= i < |db.tags| && Get(db.tags[i], Id) == id ==>
                    Get(r.value.0.tags[i], f) == if f in changes then changes[f] else Get(db.tags[i], f))
              && (forall i :: 0 <= i < |db.tags| ==> r.value.0.tags[i].Keys <= db.tags[i].Keys + changes.Keys)
              && r.value.1 == Rows.Count(db.tags, HasId(id))
  {
    if |changes| == 0 then Success((db, 0))
    else if Children in changes then Failure(UnknownColumn(Children))
    else
      Success((db.(tags := UpdateRows(db.tags, id, changes), journal := db.journal + [Updated(id, changes)]),
               Rows.Count(db.tags, HasId(id))))
  }

  /** `update`: writes the entity's changed fields, minus `children`, to the
      row with the entity's id. It never names a non-column, so never fails;
      with nothing changed it writes nothing. Every other column and every
      other row keep their values. */
  function Update(db: Db, e: Entity): (r: Result<(Db, nat), StoreError>)
    ensures r.Success?
    ensures e.changed - {Children} == {} ==> r.value == (db, 0)
    ensures e.changed - {Children} != {} ==>
              && r.value.0.journal == db.journal + [Updated(Get(e.values, Id), GetChanged(e) - {Children})]
              && r.value.1 == Rows.Count(db.tags, HasId(Get(e.values, Id)))
    ensures r.value.0.nextId == db.nextId
    ensures |r.value.0.tags| == |db.tags|
    ensures forall i :: 0 <= i < |db.tags| && Get(db.tags[i], Id) != Get(e.values, Id) ==>
              r.value.0.tags[i] == db.tags[i]
    ensures forall i, f :: 0 <= i < |db.tags| && Get(db.tags[i], Id) == Get(e.values, Id) ==>
              Get(r.value.0.tags[i], f) ==
                (if f in e.changed && f != Children then Get(e.values, f) else Get(db.tags[i], f))
    ensures forall i :: 0 <= i < |db.tags| && IsStoredRow(db.tags[i]) ==> IsStoredRow(r.value.0.tags[i])
  {
    var changes := GetChanged(e) - {Children};
    assert changes.Keys == e.changed - {Children};
    assert |changes| == 0 <==> e.changed - {Children} == {};
    var id := Get(e.values, Id);
    var r := ExecuteUpdate(db, id, changes);
    assert forall i, f :: 0 <= i < |db.tags| && Get(db.tags[i], Id) == id ==>
             Get(r.value.0.tags[i], f) ==
               (if f in e.changed && f != Children then Get(e.values, f) else Get(db.tags[i], f)) by {
      forall i, f | 0 <= i < |db.tags| && Get(db.tags[i], Id) == id
        ensures Get(r.value.0.tags[i], f) ==
                  (if f in e.changed && f != Children then Get(e.values, f) else Get(db.tags[i], f))
      {
        assert f in changes <==> f in e.changed && f != Children;
      }
    }
    r
  }

  /** `created` changes only through an update whose diff names it. */
  lemma UpdateKeepsCreated(db: Db, e: Entity)
    ensures Created !in e.changed ==>
              forall i :: 0 <= i < |db.tags| ==> Get(Update(db, e).value.0.tags[i], Created) == Get(db.tags[i], Created)
  {
  }

  /** Updating only `type` leaves `tag`, `slug` and `created` of every row as
      they were. */
  lemma PartialUpdateKeepsOtherColumns(db: Db, e: Entity, i: nat, f: Field)
    requires e.changed == {Type}
    requires i < |db.tags|
    requires f != Type
    ensures Get(Update(db, e).value.0.tags[i], f) == Get(db.tags[i], f)
  {
  }

  /** `executeDelete`: removes every row with that id; the count is how many. */
  function ExecuteDelete(db: Db, id: Value): (r: (Db, nat))
    ensures forall row :: row in r.0.tags <==> row in db.tags && Get(row, Id) != id
    ensures r.1 == |db.tags| - |r.0.tags| == Rows.Count(db.tags, HasId(id))
    ensures r.0.journal == db.journal + [Deleted(id)]
    ensures r.0.nextId == db.nextId
  {
    var kept := Rows.Select(db.tags, LacksId(id));
    CountComplement(db.tags, id);
    (db.(tags := kept, journal := db.journal + [Deleted(id)]), |db.tags| - |kept|)
  }

  /** Rows with an id and rows without it partition the table. */
  lemma {:induction false} CountComplement(tags: seq<Record>, id: Value)
    ensures |Rows.Select(tags, LacksId(id))| + Rows.Count(tags, HasId(id)) == |tags|
  {
    if |tags| > 0 {
      CountComplement(tags[1..], id);
    }
  }

  /** `delete`: first detaches the tag from attribute options, then removes
      the row with the entity's id. Rows with other ids stay. */
  function Delete(db: Db, e: Entity): (r: (Db, nat))
    ensures r.0.journal == db.journal + [OptionsDetached(Get(e.values, Id)), Deleted(Get(e.values, Id))]
    ensures forall row :: row in r.0.tags <==> row in db.tags && Get(row, Id) != Get(e.values, Id)
    ensures r.1 == Rows.Count(db.tags, HasId(Get(e.values, Id)))
  {
    var id := Get(e.values, Id);
    var detached := db.(journal := db.journal + [OptionsDetached(id)]);
    ExecuteDelete(detached, id)
  }

  // ---------------------------------------------------------------------------
  // Table integrity
  // ---------------------------------------------------------------------------

  /** The integrity the auto-increment primary key gives the table: every row
      holds columns only and a non-null id, no two rows share an id, and every
      integer id is below the next one to be assigned. */
  predicate ValidDb(db: Db) {
    && (forall i :: 0 <= i < |db.tags| ==> IsStoredRow(db.tags[i]) && Get(db.tags[i], Id) != Null)
    && (forall i, j :: 0 <= i < j < |db.tags| ==> Get(db.tags[i], Id) != Get(db.tags[j], Id))
    && (forall i :: 0 <= i < |db.tags| && Get(db.tags[i], Id).Int? ==> Get(db.tags[i], Id).i < db.nextId)
  }

  /** Among rows with pairwise different ids, an id names at most one, so
      `update` and `delete` affect at most one row of a valid table. */
  lemma {:induction false} AtMostOneRowPerId(tags: seq<Record>, id: Value)
    requires forall i, j :: 0 <= i < j < |tags| ==> Get(tags[i], Id) != Get(tags[j], Id)
    ensures Rows.Count(tags, HasId(id)) <= 1
  {
    if |tags| > 0 {
      var tail := tags[1..];
      forall i, j | 0 <= i < j < |tail|
        ensures Get(tail[i], Id) != Get(tail[j], Id)
      {
        assert tail[i] == tags[i + 1] && tail[j] == tags[j + 1];
      }
      AtMostOneRowPerId(tail, id);
      assert tags == [tags[0]] + tail;
      Rows.SelectAppend([tags[0]], tail, HasId(id));
      if HasId(id)(tags[0]) {
        forall i | 0 <= i < |tail|
          ensures !HasId(id)(tail[i])
        {
          assert tail[i] == tags[i + 1];
        }
      }
    }
  }

  /** A successful create keeps the table valid, and the id it returns
      belonged to no earlier row. */
  lemma CreatePreservesValidDb(db: Db, e: Entity, now: int)
    requires ValidDb(db)
    requires Create(db, e, now).Success?
    ensures ValidDb(Create(db, e, now).value.0)
    ensures forall i :: 0 <= i < |db.tags| ==> Get(db.tags[i], Id) != Create(db, e, now).value.1
  {
  }

  /** Creating a tag whose id a row already has is refused with a duplicate
      key error, so nothing is inserted. */
  lemma DuplicateIdExample()
    ensures var db := Db([map[Id := Int(7)]], 8, []);
            Create(db, Entity(map[Id := Int(7), Tag := Str("x")], {}), 100) == Failure(DuplicateKey(Int(7)))
  {
    assert Get([map[Id := Int(7)]][0], Id) == Int(7);
  }

  /** An update keeps the table valid: a changed `id` is written only to the
      rows that already have it. */
  lemma UpdatePreservesValidDb(db: Db, e: Entity)
    requires ValidDb(db)
    ensures ValidDb(Update(db, e).value.0)
  {
  }

  /** A delete keeps the table valid, and no row with the id remains. */
  lemma DeletePreservesValidDb(db: Db, e: Entity)
    requires ValidDb(db)
    ensures ValidDb(Delete(db, e).0)
    ensures forall i :: 0 <= i < |Delete(db, e).0.tags| ==> Get(Delete(db, e).0.tags[i], Id) != Get(e.values, Id)
  {
    var id := Get(e.values, Id);
    var kept := Delete(db, e).0.tags;
    assert kept == Rows.Select(db.tags, LacksId(id));
    assert Rows.NoDuplicates(db.tags);
    Rows.SelectNoDuplicates(db.tags, LacksId(id));
    forall i | 0 <= i < |kept|
      ensures exists a :: 0 <= a < |db.tags| && db.tags[a] == kept[i]
    {
      assert kept[i] in kept;
    }
    forall i, j | 0 <= i < j < |kept|
      ensures Get(kept[i], Id) != Get(kept[j], Id)
    {
      assert kept[i] in kept && kept[j] in kept;
      var a :| 0 <= a < |db.tags| && db.tags[a] == kept[i];
      var b :| 0 <= b < |db.tags| && db.tags[b] == kept[j];
      assert a != b;
      if a < b {
        assert Get(db.tags[a], Id) != Get(db.tags[b], Id);
      } else {
        assert Get(db.tags[b], Id) != Get(db.tags[a], Id);
      }
    }
    forall i | 0 <= i < |kept|
      ensures Get(kept[i], Id) != id
    {
      assert kept[i] in kept;
    }
  }

  // ---------------------------------------------------------------------------
  // Queries (getByTag, doesTagExist, isSlugAvailable)
  // ---------------------------------------------------------------------------

  /** `getByTag`: the hydrated first row whose `tag` is `t`; with no such row,
      the empty entity hydrated from no data. */
  function GetByTag(tags: seq<Record>, t: Value): (e: Record)
    ensures (forall i :: 0 <= i < |tags| ==> Get(tags[i], Tag) != t) ==> e == map[]
    ensures (exists i :: 0 <= i < |tags| && Get(tags[i], Tag) == t) ==>
              exists k :: 0 <= k < |tags| && Get(tags[k], Tag) == t && e == GetEntity(tags, tags[k])
                          && forall j :: 0 <= j < k ==> Get(tags[j], Tag) != t
  {
    match Rows.First(tags, r => Get(r, Tag) == t)
    case Some(row) => GetEntity(tags, row)
    case None => GetEntity(tags, map[])
  }

  /** `doesTagExist`: some row has this value as its id or as its text. */
  function DoesTagExist(tags: seq<Record>, tagOrId: Value): (b: bool)
    ensures b <==> exists i :: 0 <= i < |tags| && (Get(tags[i], Id) == tagOrId || Get(tags[i], Tag) == tagOrId)
  {
    Rows.Count(tags, r => Get(r, Id) == tagOrId || Get(r, Tag) == tagOrId) > 0
  }

  /** A stored tag is found both by its id and by its text. */
  lemma ExistenceSymmetry(tags: seq<Record>, k: nat)
    requires k < |tags|
    ensures DoesTagExist(tags, Get(tags[k], Id))
    ensures DoesTagExist(tags, Get(tags[k], Tag))
  {
  }

  /** `isSlugAvailable`: no row has this slug. */
  function IsSlugAvailable(tags: seq<Record>, slug: Value): (b: bool)
    ensures b <==> forall i :: 0 <= i < |tags| ==> Get(tags[i], Slug) != slug
  {
    Rows.Count(tags, r => Get(r, Slug) == slug) == 0
  }
}

=== FILE: values.dfy ===
/** Values as the repositories see them: the loosely typed scalars and arrays of
    a PHP request or query result, PHP truthiness, and two small wrappers. */
module Values {

  /** Present or absent. */
  datatype Option<+T> = None | Some(value: T)

  /** A successful value or an error. */
  datatype Result<+T, +E> = Success(value: T) | Failure(error: E)

  /** A PHP value as it reaches a repository from a request, an entity or a
      query result. Floating-point numbers are not modelled. */
  datatype Value =
    | Null
    | Bool(b: bool)
    | Int(i: int)
    | Str(s: string)
    | List(items: seq<Value>)

  /** What `if ($v)` accepts; PHP's `empty($v)` is the negation. The string
      "0" and the empty array are falsy, like null, false, 0 and "". */
  predicate Truthy(v: Value) {
    match v
    case Null => false
    case Bool(b) => b
    case Int(i) => i != 0
    case Str(s) => s != "" && s != "0"
    case List(items) => |items| > 0
  }

  /** `q` occurs somewhere inside `t`. */
  predicate Contains(t: string, q: string)
    decreases |t|
  {
    q <= t || (|t| > 0 && Contains(t[1..], q))
  }

  /** Contains agrees with the positional definition of a substring. */
  lemma {:induction false} ContainsIff(t: string, q: string)
    ensures Contains(t, q) <==> exists k :: 0 <= k <= |t| && q <= t[k..]
    decreases |t|
  {
    if q <= t {
      assert t[0..] == t;
    } else if |t| == 0 {
    } else {
      ContainsIff(t[1..], q);
      if Contains(t, q) {
        var k :| 0 <= k <= |t| - 1 && q <= t[1..][k..];
        assert t[1..][k..] == t[k + 1..];
      } else {
        forall k | 0 <= k <= |t|
          ensures !(q <= t[k..])
        {
          if k > 0 {
            assert t[1..][k - 1..] == t[k..];
          } else {
            assert t[0..] == t;
          }
        }
      }
    }
  }
}
